=== FILE: README.md ===
# Localizations: a Dafny model of the loader core

This project models the core of `Localizations`. That is a small C# library
a Unity mod uses to get localized texts. A host for which
`HasNetworkConnection()` is true reads only a local cache file. Otherwise the
library fetches a Google Sheet through the sheet endpoint's JSON-with-padding
response. If that response has no bytes, it fetches a copy of the cache file
from GitHub, writes it over the local cache file and reads that. If neither
response has bytes, no file is read. The result is a
key -> language -> text table, and the library reports its progress through
two flags, `Loaded` and `Failed`.

The model has four parts, each written as pure functions over immutable data:

- **Sheet-payload parser** (`SheetParser`). It strips the fixed envelope and
  walks the decoded `table.rows[].c[].v` tree. Every C# `as` cast, `?.` access,
  list index, `RemoveAt` and `Dictionary.Add` becomes an explicit check that
  yields the exception the code would throw (`Exceptions.Exception`). Such an
  exception is never caught, so a parse ends either `Done(table)` or
  `Threw(error, partial)`. `partial` is the table as the exception left it:
  unchanged if the strip failed, cleared or partly filled otherwise.
- **Lookup accessors** (`Lookup`): the indexer, `Get` and `GetAll`. The
  active language (`RDString.language`) is a parameter.
- **Fallback decision** (`Loader`): `Download` and `LoadFromFile` as a
  function from abstract outcomes to the new table, flags and cache file. The
  outcomes are the connectivity flag, the sheet response, the GitHub response
  and the cache file.
- **Dictionary codec** (`SerializableDictionary`, `Tables`): `WriteXml` and
  `ReadXml` on the list of `(key, value)` items of the persisted document. The
  codec is nested: each value of the table is itself a serialized dictionary.

A .NET `Dictionary` is modelled as `Dict(keys, items)`, a map plus the order
its enumerator yields keys in. That order is insertion order, because nothing
in the core removes a single key. The order matters in two places: `Get` falls
back to the *first* language of a map, and `WriteXml` emits items in
enumeration order. A text is an `Option<string>`, where `None` is a null
string. The sheet parser never stores null, but a cache document can.

The model follows the code as written. Some consequences of the code that a
reader might not expect:

- A host for which `HasNetworkConnection()` is true reads only the cache file
  and never fetches (Localization.cs:94-98).
- When neither remote response has bytes, `Loaded` is set, `Failed` is not,
  and the cache file is not read (Localization.cs:110-115). `Failed` is set
  only when the cache file is read and cannot be: on the connected path, or
  after the GitHub bytes were written to it (Localization.cs:117-119,
  165-186).
- An exception in the sheet branch (a response too short to strip, a
  malformed tree, a duplicate key) is not caught, and the GitHub copy is not
  tried. The coroutine ends with neither flag set (Localization.cs:123-157).
- Two header columns with the same language only make a row throw when both
  of that row's cells carry a non-empty text, because `Add` is reached only
  for those (Localization.cs:143-148).
- A data row with a non-empty key and more cells than the header has columns
  throws `ArgumentOutOfRange` (`languageList[i]`, Localization.cs:142). This
  happens even when the extra cells are empty. A row whose key is null or
  empty is skipped before its cells are looked at (Localization.cs:136-137).
- `Get` on a key whose active-language text is a stored null returns not
  found. It does not go on to English (Localization.cs:75-76).

## Model

| member | source | states |
|---|---|---|
| SerializableDictionary.Add | SerializableDirectiory.cs:44 | adding a key already present throws `DuplicateKey` instead of overwriting; a new key is appended to the enumeration order |
| SerializableDictionary.ToSerializable | SerializableDirectiory.cs:14-20 | the result has exactly the argument's keys, each with the same value, in the same order |
| SerializableDictionary.WriteFrom | SerializableDirectiory.cs:55-66 | the items emitted for the keys from position i on: one per key, in order, each carrying the key and its written value |
| SerializableDictionary.WriteXml | SerializableDirectiory.cs:51-67 | exactly one item per key of the map, in enumeration order, each carrying that key and the written form of its mapped value |
| SerializableDictionary.ReadFrom | SerializableDirectiory.cs:35-47 | a successful read continued from a partly read dictionary enumerates the earlier keys followed by the document's keys in document order |
| SerializableDictionary.ReadFromSucceeds | SerializableDirectiory.cs:35-47 | the read loop succeeds iff no key repeats, among the earlier keys and the document's, and every value deserializes |
| SerializableDictionary.ReadFromValues | SerializableDirectiory.cs:35-47 | a successful read keeps the earlier entries and maps each item's key to the value its item deserializes to |
| SerializableDictionary.ReadXml | SerializableDirectiory.cs:27-49 | succeeds iff the document repeats no key and every value reads; the result enumerates the keys in document order, each mapped to its item's value; an empty element reads as an empty dictionary |
| SerializableDictionary.ReadWriteRoundTrip | SerializableDirectiory.cs:27-66 | reading the items `WriteXml` wrote reproduces the dictionary (same keys, same order, same values) whenever the value serializer round-trips |
| SerializableDictionary.WrittenKeysDistinct | SerializableDirectiory.cs:55-66 | the written item list repeats no key and has one item per entry |
| SerializableDictionary.WrittenValuesRead | SerializableDirectiory.cs:55-66 | each written item names a key of the map and reads back as that key's value when the value serializer round-trips |
| Json.Member | Localization.cs:126 | `(x as Dictionary<string, object>)[name]`: a non-object throws `NullReference`, an absent member `KeyNotFound`, otherwise the member's value |
| Json.MemberOrNull | Localization.cs:135 | `?["v"]`: a non-object yields null, but an object lacking the member still throws `KeyNotFound` |
| Escapes.Unescape | Localization.cs:148 | the rewrite never lengthens a text and keeps a non-empty text non-empty; what it does to escapes is stated by the four lemmas below |
| Escapes.UnescapeClearsEscapes | Localization.cs:148 | a stored text never contains a backslash-n sequence |
| Escapes.UnescapeKeepsPlainText | Localization.cs:148 | a cell text without a backslash-n sequence is stored unchanged |
| Escapes.UnescapeIdempotent | Localization.cs:148 | rewriting an already rewritten text changes nothing |
| Escapes.UnescapeInvertsEscape | Localization.cs:148 | a multi-line text typed with backslash-n line breaks (and no literal backslash-n) is stored with its line breaks restored |
| Tables.EncodeTable | Localization.cs:158-159 | the document written for a table lists its keys in enumeration order, each with the item list of that key's language map |
| Tables.DecodeTable | Localization.cs:170-172 | reading a cache document succeeds iff no key repeats, neither in the outer list nor in any language list; the table enumerates the document's keys in order; each key maps to the language map its item list reads as |
| Tables.TableRoundTrip | Localization.cs:158-172 | writing a table to the cache and reading it back yields the same table |
| SheetParser.Strip | Localization.cs:123-124 | exactly the first 47 and the last 2 characters are removed; a text shorter than 49 characters throws `ArgumentOutOfRange` |
| SheetParser.CellText | Localization.cs:145 | a cell's text is null for a null or non-object cell or a non-string `v`; a cell object without `v` throws |
| SheetParser.HeaderLanguage | Localization.cs:127-129 | a header cell whose `v` is a string gives the language that name parses to, or `Unknown` when it does not parse; a null or non-object cell, or a non-string `v`, gives `Unknown`; a cell object without `v` throws |
| SheetParser.HeaderLanguages | Localization.cs:127-129 | the header list has one language per header cell, each the cell's language, and throws iff some cell throws |
| SheetParser.HeaderRow | Localization.cs:127-131 | the header row parses iff the first row is an object with a non-empty `c` list whose every cell's language can be read; the column languages are then those cells' languages with column 0 dropped |
| SheetParser.Rows | Localization.cs:126-127 | the rows are found iff the tree is an object with a `table` object holding a non-empty `rows` list |
| SheetParser.ParseCells | Localization.cs:140-149 | the languages stored before a cell is parsed keep their texts: the inner loop only adds |
| SheetParser.ParseCellsSucceeds | Localization.cs:140-149 | a row's cells parse iff the row is no wider than the header, every cell under a known language reads, no stored cell's language is already stored, and no two stored cells share a language |
| SheetParser.ParseCellsStores | Localization.cs:142-148 | each stored column (known language, non-empty text) maps its language to its cell's unescaped text |
| SheetParser.ParseCellsAddsOnlyStored | Localization.cs:142-148 | every language the row adds is that of a stored column, so nothing under `Unknown` or an empty cell is added |
| SheetParser.ParseCellsKeys | Localization.cs:140-148 | a parsed row's map enumerates the languages held before, then the stored columns' languages in column order, and nothing else |
| SheetParser.ParseRow | Localization.cs:134-149 | a row parses iff it is an object with a non-empty `c` list, its key cell can be read, and, when the key is non-empty, its other cells are accepted by the inner loop; a row whose key is null or empty yields no entry; otherwise the entry's key is that text and its map has no `Unknown` language, with each stored cell's unescaped text; the map enumerates exactly the stored columns' languages, in column order |
| SheetParser.ParseRows | Localization.cs:132-157 | the entries collected from all data rows (reference definition): it succeeds iff every row parses; without a hook the entries have non-empty keys and no `Unknown` language |
| SheetParser.Ingest | Localization.cs:132-157 | the row loop only ever extends the table it started from, whether it finishes or throws: the old keys stay first, in order, each with its old map |
| SheetParser.IngestMatchesParseRows | Localization.cs:150-156 | the loop finishes iff every row parses and the inserted keys are new and distinct; it then holds the old keys followed by the inserted ones, each with the inserted map; if every row parses, a repeated key throws `DuplicateKey` and is not overwritten |
| SheetParser.ParseTree | Localization.cs:125-157 | a malformed tree throws with the table left empty, because it was cleared first; a tree with rows and a readable header row finishes iff every data row parses and the entries' keys are distinct, and the table then enumerates exactly those keys in row order |
| SheetParser.ParseSheet | Localization.cs:123-157 | a response too short to strip throws before the table is cleared; otherwise the result is the parse of the decoded stripped text |
| SheetParser.SheetParseSucceeds | Localization.cs:123-157 | the sheet branch finishes iff the response strips, the payload has rows and a readable header row, every data row parses, and the keys to insert are pairwise distinct |
| SheetParser.GreetingSheetParses | Localization.cs:125-157 | a payload with header `key, English` and one row `greeting, Hello` finishes with the table holding exactly `greeting`, mapped to English -> `Hello` |
| SheetParser.GreetingHeader | Localization.cs:127-131 | the header row `key, English` yields the one data column English, the key column being dropped |
| SheetParser.SheetReplacesTable | Localization.cs:125 | a successful sheet parse does not depend on the table held before, and holds exactly the keys of the entries the payload yields |
| SheetParser.DoneEntriesFromRows | Localization.cs:132-157 | every entry of a finished table is an entry the payload yields |
| SheetParser.UnknownColumnsDropped | Localization.cs:142-144 | without a hook, no language map of a sheet-loaded table holds `Unknown` |
| SheetParser.SheetTextsUnescaped | Localization.cs:145-148 | without a hook, every text of a sheet-loaded table is non-null and holds no backslash-n sequence |
| SheetParser.RowTextSource | Localization.cs:140-148 | every text of a parsed entry is the unescaped text of a stored cell of some data row, in a column whose header language is that text's language |
| SheetParser.HookAppliedToEachEntry | Localization.cs:150-155 | with a hook, the entries inserted are exactly the hook's images of the entries inserted without one, in the same order, and parsing succeeds in the same cases |
| Lookup.Indexer | Localization.cs:57-67 | ignores the flags; succeeds iff the key is present and its map has the active or the default language; returns the active language's text, else the default's; otherwise throws `KeyNotFound` |
| Lookup.Get | Localization.cs:69-85 | not loaded or failed gives not found with a null value for every key; otherwise the value is the text of the first of active language, English, the map's first language that is present; found iff that text is non-null |
| Lookup.GetAll | Localization.cs:87-90 | ignores the flags; a copy of the key's language map with the same languages, texts and order, or null for an absent key |
| Lookup.GetAgreesWithIndexer | Localization.cs:57-84 | once loaded, `Get` returns the same text as the indexer with default English whenever the indexer does not throw |
| Lookup.GetFindsWhatGetAllLists | Localization.cs:69-90 | a text `Get` finds is listed by `GetAll` for the same key |
| Lookup.ParametersIgnored | Localization.cs:63-64 | substitution parameters never change what `Get` or the indexer return, because the substitution result is discarded |
| Lookup.ActiveTextFound | Localization.cs:74-76 | once loaded, a key whose map has the active language yields that language's text, found iff it is non-null |
| Lookup.NullActiveTextHidesEnglish | Localization.cs:74-76 | a stored null for the active language gives not found, even when English has a text |
| Loader.Initial | Localization.cs:24-31 | a new loader has an empty table and neither flag set |
| Loader.ReadCache | Localization.cs:167-181 | the cache yields a table iff the file exists, is a readable document and decodes |
| Loader.LoadFromFile | Localization.cs:165-186 | a readable cache replaces the table and sets `Loaded` only; a missing or unreadable one sets `Loaded` and `Failed` and keeps the table |
| Loader.Download | Localization.cs:92-163 | connected reads only the cache; sheet success replaces the table, writes the cache and sets `Loaded`; a sheet exception sets no flag; GitHub bytes overwrite the cache file, which is then read; both absent sets `Loaded` only |
| Loader.SettledFlags | Localization.cs:94-122 | a fresh load ends `Failed` iff it read the cache file and could not; `Failed` implies `Loaded`; `Loaded` stays unset only when the sheet parse threw |
| Loader.CacheReadSucceeds | Localization.cs:170-176 | a successful cache read ends loaded, not failed, with the decoded table |
| Loader.SheetLoadPersists | Localization.cs:158-160 | after a sheet success, reading the written cache file gives back the same table |
| Loader.RemoteSilenceKeepsTable | Localization.cs:102-116 | with no sheet and no GitHub bytes the load ends loaded, with `Failed`, table and file as they were |
| Loader.SheetExceptionLeavesUnsettled | Localization.cs:123-157 | an exception in the sheet branch leaves both flags unset and the partial table in place, and `Get` finds nothing |
| Loader.FailedLoadFindsNothing | Localization.cs:72-73 | after a failed load `Get` finds nothing for any key |
| Loader.CachedGreetingInFrench | Localization.cs:165-176 | a cache with an English and French greeting, read with French active, yields the French text |
| Loader.EnglishFallback | Localization.cs:74-78 | with English and French texts and German active, `Get` returns the English text |

## Left out

- Network I/O (`UnityWebRequest`) and the URLs it is sent to. Each fetch is an
  outcome: the sheet response text or none, the GitHub response content or
  none. The GitHub URL built from `FileInfo(path).DirectoryName` is not modelled.
- UTF-8 decoding and the JSON library (`Json.Deserialize`). The decoder is the
  `decode` parameter; text that does not decode is expected to map to `Null`.
  `Strip` counts characters where .NET counts UTF-16 code units.
- XML tokenisation and the scalar serializers. The cache file is either
  `Garbled` (anything `XmlSerializer` cannot read) or its item list. A nil or
  unreadable key (`Add` with a null key throws) or an unreadable value counts
  as `Garbled`; a nil text is read as `None`.
- File I/O failures when writing the cache (`StreamWriter`,
  `File.WriteAllBytes`). Writes are assumed to succeed.
- `Enum.TryParse<SystemLanguage>` is the `parseLanguage` parameter. Unity's
  `SystemLanguage` enumeration is reduced to `Unknown`, `English` and `Other`.
- `RDString.language` is a parameter. `RDString.ReplaceParameters` is not
  modelled because its result is unused.
- The `onLoad` hook returning a null key or a null map. Dafny values are never
  null, so the exceptions `Add` would raise for these are not modelled.
- Logging (`logger`, the `log` flag, including the stale count logged after
  the GitHub download). Logging is only a side channel.
- Tables.TableRoundTrip: holds only for keys and texts XML reading preserves.
  The key and text serializers are modelled as returning every string
  unchanged, but `XmlSerializer` reads a carriage return before a line break
  back as a line break alone, and a string made only of white space back as
  an empty string. Two keys that collapse to the same string this way make the
  next cache read throw `DuplicateKey` and the load end `Failed`.
- Loader.SheetLoadPersists: rests on the same assumption as
  `Tables.TableRoundTrip`, so a sheet key or text with such characters is not
  promised to come back from the cache file unchanged.
- An `onLoad` hook that throws. The hook is a total function here. In the code
  its exception is not caught, so like the other sheet exceptions it would end
  the load with neither flag set.
- The `Load` factory overloads and their default cache path; the model takes
  the cache file's content directly.
- Coroutine scheduling (`StaticCoroutine`), timing, and reads that happen while
  a load is in progress. A load is modelled as one step from the state after
  construction.
- JSON numbers are modelled as integers; only the fact that they are not
  strings matters to the parser.

=== FILE: dictionary.dfy ===
/** `SerializableDictionary<TKey, TValue>`: a .NET `Dictionary` that writes
    itself to, and reads itself back from, a persisted document as a list of
    `item` elements, each holding one `key` and one `value`.

    The document is modelled at the level of that item list: `WriteXml` yields
    the items in the order it emits them, `ReadXml` consumes items in document
    order. How a single key or value becomes XML text is a parameter
    (`writeValue` / `readValue`), because that is the job of a nested
    `XmlSerializer`. */
module SerializableDictionary {
  import opened Wrappers
  import opened Exceptions

  /** A .NET dictionary: a hash map together with the order its enumerator
      yields the keys in. With no removals (the modelled code never removes a
      single key) that order is insertion order. */
  datatype Dict<K(==, !new), V> = Dict(keys: seq<K>, items: map<K, V>)

  ghost predicate Distinct<K>(s: seq<K>) {
    forall i, j :: 0 <= i < j < |s| ==> s[i] != s[j]
  }

  /** Every key is enumerated exactly once and nothing else is enumerated. */
  ghost predicate WellFormed<K(!new), V>(d: Dict<K, V>) {
    && Distinct(d.keys)
    && (forall k :: k in d.items <==> k in d.keys)
  }

  type Dictionary<K(==, !new), V> = d: Dict<K, V> | WellFormed(d) witness Dict([], map[])

  function Empty<K(==, !new), V>(): Dictionary<K, V> {
    Dict([], map[])
  }

  /** `Dictionary.Add`: appends a new key; a key already present raises
      instead of overwriting. */
  function Add<K(==, !new), V>(d: Dictionary<K, V>, k: K, v: V): (r: Result<Dictionary<K, V>, Exception>)
    ensures r.Error? <==> k in d.items
    ensures r.Error? ==> r.error == DuplicateKey
    ensures r.Ok? ==> r.value.keys == d.keys + [k] && r.value.items == d.items[k := v]
  {
    if k in d.items then Error(DuplicateKey)
    else Ok(Dict(d.keys + [k], d.items[k := v]))
  }

  /** The keys of an item list, in document order. */
  function KeysOf<K, W>(items: seq<(K, W)>): (ks: seq<K>)
    ensures |ks| == |items|
    ensures forall i :: 0 <= i < |items| ==> ks[i] == items[i].0
  {
    seq(|items|, i requires 0 <= i < |items| => items[i].0)
  }

  /** Copies `source`'s entries, in its enumeration order, after the first
      `i` of them, which `acc` already holds. This is what both the copying
      constructor `Dictionary(IDictionary)` and LINQ's `ToDictionary` do. */
  function CopyFrom<K(==, !new), V>(acc: Dictionary<K, V>, source: Dictionary<K, V>, i: nat): (r: Dictionary<K, V>)
    requires i <= |source.keys|
    requires acc.keys == source.keys[..i]
    requires forall k :: k in acc.items ==> acc.items[k] == source.items[k]
    ensures r.keys == source.keys
    ensures r.items == source.items
    decreases |source.keys| - i
  {
    if i == |source.keys| then
      assert acc.items.Keys == source.items.Keys;
      acc
    else
      var k := source.keys[i];
      assert source.keys[..i + 1] == source.keys[..i] + [k];
      assert k !in acc.keys by {
        forall j | 0 <= j < i ensures source.keys[j] != k { }
      }
      CopyFrom(Add(acc, k, source.items[k]).value, source, i + 1)
  }

  /** A new dictionary built by adding `dict`'s entries one by one in its
      enumeration order. */
  function Copy<K(==, !new), V>(dict: Dictionary<K, V>): (r: Dictionary<K, V>)
    ensures forall k :: k in r.items <==> k in dict.items
    ensures forall k :: k in r.items ==> r.items[k] == dict.items[k]
    ensures r.keys == dict.keys
  {
    CopyFrom(Empty(), dict, 0)
  }

  /** `ToSerializable` (SerializableDirectiory.cs:14-20): a serializable
      dictionary with exactly the entries of its argument, enumerated in the
      same order. */
  function ToSerializable<K(==, !new), V>(dict: Dictionary<K, V>): (r: Dictionary<K, V>)
    ensures forall k :: k in r.items <==> k in dict.items
    ensures forall k :: k in r.items ==> r.items[k] == dict.items[k]
    ensures r.keys == dict.keys
  {
    Copy(dict)
  }

  /** The items `WriteXml` emits for the keys `d.keys[i..]`. */
  function WriteFrom<K(==, !new), V, W>(d: Dictionary<K, V>, writeValue: V -> W, i: nat): (items: seq<(K, W)>)
    requires i <= |d.keys|
    ensures |items| == |d.keys| - i
    ensures forall j :: 0 <= j < |items| ==>
      items[j].0 == d.keys[i + j] && items[j].1 == writeValue(d.items[d.keys[i + j]])
    decreases |d.keys| - i
  {
    if i == |d.keys| then []
    else [(d.keys[i], writeValue(d.items[d.keys[i]]))] + WriteFrom(d, writeValue, i + 1)
  }

  /** `WriteXml`: one item per key, in enumeration order, carrying the key
      and the value the dictionary maps it to. */
  function WriteXml<K(==, !new), V, W>(d: Dictionary<K, V>, writeValue: V -> W): (items: seq<(K, W)>)
    ensures KeysOf(items) == d.keys
    ensures forall j :: 0 <= j < |items| ==> items[j].1 == writeValue(d.items[items[j].0])
  {
    WriteFrom(d, writeValue, 0)
  }

  /** The loop of `ReadXml`, continued from the dictionary `d` read so far:
      each item's value is deserialized and then the pair is added; the first
      failure ends the read. */
  function ReadFrom<K(==, !new), V, W>(d: Dictionary<K, V>, items: seq<(K, W)>, readValue: W -> Result<V, Exception>)
    : (r: Result<Dictionary<K, V>, Exception>)
    ensures r.Ok? ==> r.value.keys == d.keys + KeysOf(items)
    decreases |items|
  {
    if |items| == 0 then
      assert d.keys + KeysOf(items) == d.keys;
      Ok(d)
    else
      match readValue(items[0].1)
      case Error(e) => Error(e)
      case Ok(v) =>
        match Add(d, items[0].0, v)
        case Error(e) => Error(e)
        case Ok(d') =>
          assert d.keys + KeysOf(items) == d'.keys + KeysOf(items[1..]);
          ReadFrom(d', items[1..], readValue)
  }

  /** Reading succeeds exactly when no key of the document repeats one read
      before it or already present, and every value deserializes. */
  lemma {:induction false} ReadFromSucceeds<K(!new), V, W>(d: Dictionary<K, V>, items: seq<(K, W)>, readValue: W -> Result<V, Exception>)
    ensures ReadFrom(d, items, readValue).Ok? <==>
      && Distinct(d.keys + KeysOf(items))
      && AllRead(items, readValue)
    decreases |items|
  {
    if |items| > 0 {
      var k := items[0].0;
      if readValue(items[0].1).Error? {
        assert !AllRead(items, readValue);
      } else if k in d.items {
        PresentKeyRepeats(d, items);
      } else {
        var d' := Add(d, k, readValue(items[0].1).value).value;
        ReadFromSucceeds(d', items[1..], readValue);
        AllReadTail(items, readValue);
        assert d.keys + KeysOf(items) == d'.keys + KeysOf(items[1..]);
      }
    }
  }

  /** Every item's value deserializes. */
  ghost predicate AllRead<K, V, W>(items: seq<(K, W)>, readValue: W -> Result<V, Exception>) {
    forall i :: 0 <= i < |items| ==> readValue(items[i].1).Ok?
  }

  lemma AllReadTail<K, V, W>(items: seq<(K, W)>, readValue: W -> Result<V, Exception>)
    requires |items| > 0 && readValue(items[0].1).Ok?
    ensures AllRead(items, readValue) <==> AllRead(items[1..], readValue)
  {
    assert forall i :: 1 <= i < |items| ==> items[i] == items[1..][i - 1];
  }

  lemma PresentKeyRepeats<K(!new), V, W>(d: Dictionary<K, V>, items: seq<(K, W)>)
    requires |items| > 0 && items[0].0 in d.items
    ensures !Distinct(d.keys + KeysOf(items))
  {
    var all := d.keys + KeysOf(items);
    var j :| 0 <= j < |d.keys| && d.keys[j] == items[0].0;
    assert all[j] == all[|d.keys|];
  }

  /** A successful read keeps the entries present before it and maps each
      item's key to the value its item deserializes to. */
  lemma {:induction false} ReadFromValues<K(!new), V, W>(d: Dictionary<K, V>, items: seq<(K, W)>, readValue: W -> Result<V, Exception>)
    requires ReadFrom(d, items, readValue).Ok?
    ensures forall k :: k in d.items ==> ReadFrom(d, items, readValue).value.items[k] == d.items[k]
    ensures forall i :: 0 <= i < |items| ==>
      readValue(items[i].1) == Ok(ReadFrom(d, items, readValue).value.items[items[i].0])
    decreases |items|
  {
    if |items| > 0 {
      var k := items[0].0;
      var d' := Add(d, k, readValue(items[0].1).value).value;
      ReadFromValues(d', items[1..], readValue);
      assert forall i :: 1 <= i < |items| ==> items[i] == items[1..][i - 1];
    }
  }

  /** `ReadXml` (SerializableDirectiory.cs:27-49): adds the items in document
      order to an empty dictionary. It succeeds exactly when no key repeats
      and every value deserializes, and then enumerates the keys in document
      order with each key mapped to its item's value. An empty element reads
      as an empty dictionary. */
  function ReadXml<K(==, !new), V, W>(items: seq<(K, W)>, readValue: W -> Result<V, Exception>)
    : (r: Result<Dictionary<K, V>, Exception>)
    ensures r.Ok? <==>
      && Distinct(KeysOf(items))
      && (forall i :: 0 <= i < |items| ==> readValue(items[i].1).Ok?)
    ensures r.Ok? ==> r.value.keys == KeysOf(items)
    ensures r.Ok? ==> forall i :: 0 <= i < |items| ==> readValue(items[i].1) == Ok(r.value.items[items[i].0])
    ensures |items| == 0 ==> r.Ok? && r.value.items == map[]
  {
    var e: Dictionary<K, V> := Empty();
    assert e.keys + KeysOf(items) == KeysOf(items);
    ReadFromSucceeds(e, items, readValue);
    var r := ReadFrom(e, items, readValue);
    if r.Ok? then ReadFromValues(e, items, readValue); r else r
  }

  /** Reading back what `WriteXml` wrote reproduces the dictionary: the same
      keys in the same order, each with the same value, provided the value
      serializer round-trips on every stored value. */
  lemma ReadWriteRoundTrip<K(!new), V, W>(d: Dictionary<K, V>, writeValue: V -> W, readValue: W -> Result<V, Exception>)
    requires forall k :: k in d.items ==> readValue(writeValue(d.items[k])) == Ok(d.items[k])
    ensures ReadXml(WriteXml(d, writeValue), readValue) == Ok(d)
  {
    var items := WriteXml(d, writeValue);
    WrittenValuesRead(d, writeValue, readValue);
    var r := ReadXml(items, readValue);
    assert r.Ok?;
    var t := r.value;
    forall k | k in d.items
      ensures k in t.items && t.items[k] == d.items[k]
    {
      var i :| 0 <= i < |d.keys| && d.keys[i] == k;
      assert items[i].0 == KeysOf(items)[i] == k;
    }
    SameEntries(t, d);
  }

  /** Each item `WriteXml` emits reads back as its key's value. */
  lemma WrittenValuesRead<K(!new), V, W>(d: Dictionary<K, V>, writeValue: V -> W, readValue: W -> Result<V, Exception>)
    requires forall k :: k in d.items ==> readValue(writeValue(d.items[k])) == Ok(d.items[k])
    ensures forall i :: 0 <= i < |WriteXml(d, writeValue)| ==>
      var item := WriteXml(d, writeValue)[i];
      item.0 in d.items && readValue(item.1) == Ok(d.items[item.0])
  {
    var items := WriteXml(d, writeValue);
    forall i | 0 <= i < |items|
      ensures items[i].0 in d.items && readValue(items[i].1) == Ok(d.items[items[i].0])
    {
      assert items[i].0 == KeysOf(items)[i] == d.keys[i];
    }
  }

  /** Two well-formed dictionaries that enumerate the same keys and agree on
      every value are equal. */
  lemma SameEntries<K(!new), V>(a: Dictionary<K, V>, b: Dictionary<K, V>)
    requires a.keys == b.keys
    requires forall k :: k in b.items ==> k in a.items && a.items[k] == b.items[k]
    ensures a == b
  {
    assert a.items.Keys == b.items.Keys;
    assert a.items == b.items;
  }

  /** The item list `WriteXml` emits never repeats a key, so reading it back
      cannot fail with `DuplicateKey`. */
  lemma WrittenKeysDistinct<K(!new), V, W>(d: Dictionary<K, V>, writeValue: V -> W)
    ensures Distinct(KeysOf(WriteXml(d, writeValue)))
    ensures |WriteXml(d, writeValue)| == |d.items|
  {
    var ks := KeysOf(WriteXml(d, writeValue));
    assert d.items.Keys == set k | k in d.keys;
    DistinctCardinality(d.keys);
  }

  lemma {:induction false} DistinctCardinality<K>(s: seq<K>)
    requires Distinct(s)
    ensures |set k | k in s| == |s|
  {
    if |s| > 0 {
      var t := s[..|s| - 1];
      assert Distinct(t);
      DistinctCardinality(t);
      assert (set k | k in s) == (set k | k in t) + {s[|s| - 1]};
      assert s[|s| - 1] !in t;
    }
  }
}

=== FILE: escapes.dfy ===
/** The escape rewriting applied to every cell text before it is stored
    (Localization.cs:148): `value.Replace("\\n", "\n")`, which replaces each
    two-character backslash-n sequence, scanning left to right without
    overlap, by a line break. */
module Escapes {

  /** `s` holds no backslash immediately followed by the letter n. */
  ghost predicate NoEscape(s: string) {
    forall i :: 0 <= i < |s| - 1 ==> !(s[i] == '\\' && s[i + 1] == 'n')
  }

  function Unescape(s: string): (r: string)
    ensures |r| <= |s|
    ensures |s| > 0 ==> |r| > 0
  {
    if |s| < 2 then s
    else if s[0] == '\\' && s[1] == 'n' then "\n" + Unescape(s[2..])
    else [s[0]] + Unescape(s[1..])
  }

  /** How a sheet author writes a multi-line text into a single-line cell:
      every line break becomes backslash-n. */
  function Escape(t: string): (r: string)
    ensures |r| >= |t|
  {
    if |t| == 0 then ""
    else (if t[0] == '\n' then "\\n" else [t[0]]) + Escape(t[1..])
  }

  /** The first character of an unescaped text is the letter n exactly when
      the raw text starts with it. */
  lemma UnescapeHead(s: string)
    requires |s| > 0
    ensures Unescape(s)[0] == 'n' <==> s[0] == 'n'
  {
  }

  lemma EscapeHead(t: string)
    requires |t| > 0
    ensures Escape(t)[0] == 'n' <==> t[0] == 'n'
  {
  }

  /** No stored text contains a backslash-n sequence: every one in the cell
      was rewritten, and none can be formed by the rewriting. */
  lemma {:induction false} UnescapeClearsEscapes(s: string)
    ensures NoEscape(Unescape(s))
  {
    if |s| >= 2 {
      if s[0] == '\\' && s[1] == 'n' {
        UnescapeClearsEscapes(s[2..]);
        assert Unescape(s) == "\n" + Unescape(s[2..]);
      } else {
        UnescapeClearsEscapes(s[1..]);
        UnescapeHead(s[1..]);
        var r := Unescape(s);
        assert r == [s[0]] + Unescape(s[1..]);
        forall i | 0 <= i < |r| - 1
          ensures !(r[i] == '\\' && r[i + 1] == 'n')
        {
          if i > 0 {
            assert r[i] == Unescape(s[1..])[i - 1];
            assert r[i + 1] == Unescape(s[1..])[i];
          }
        }
      }
    }
  }

  /** A text with no backslash-n sequence is stored unchanged. */
  lemma {:induction false} UnescapeKeepsPlainText(s: string)
    requires NoEscape(s)
    ensures Unescape(s) == s
  {
    if |s| >= 2 {
      assert NoEscape(s[1..]) by {
        forall i | 0 <= i < |s[1..]| - 1
          ensures !(s[1..][i] == '\\' && s[1..][i + 1] == 'n')
        {
          assert s[1..][i] == s[i + 1] && s[1..][i + 1] == s[i + 2];
        }
      }
      UnescapeKeepsPlainText(s[1..]);
      assert [s[0]] + s[1..] == s;
    }
  }

  /** Rewriting twice stores the same text as rewriting once. */
  lemma UnescapeIdempotent(s: string)
    ensures Unescape(Unescape(s)) == Unescape(s)
  {
    UnescapeClearsEscapes(s);
    UnescapeKeepsPlainText(Unescape(s));
  }

  /** A multi-line text the author typed with backslash-n line breaks is
      stored with its line breaks back, provided the text has no literal
      backslash-n of its own. */
  lemma {:induction false} UnescapeInvertsEscape(t: string)
    requires NoEscape(t)
    ensures Unescape(Escape(t)) == t
  {
    if |t| > 0 {
      var rest := t[1..];
      assert NoEscape(rest) by {
        forall i | 0 <= i < |rest| - 1
          ensures !(rest[i] == '\\' && rest[i + 1] == 'n')
        {
          assert rest[i] == t[i + 1] && rest[i + 1] == t[i + 2];
        }
      }
      UnescapeInvertsEscape(rest);
      var e := Escape(t);
      if t[0] == '\n' {
        assert e == "\\n" + Escape(rest);
        assert e[2..] == Escape(rest);
      } else {
        assert e == [t[0]] + Escape(rest);
        assert e[1..] == Escape(rest);
        if |rest| > 0 {
          EscapeHead(rest);
          assert e[1] == Escape(rest)[0];
          assert t[1] == rest[0];
        }
        assert [t[0]] + rest == t;
      }
    }
  }
}

=== FILE: json.dfy ===
/** The decoded JSON tree the sheet endpoint's payload turns into, and the
    C# casts the parser applies to it. Decoding the text itself is done by a
    JSON library and is a parameter of the loader. */
module Json {
  import opened Wrappers
  import opened Exceptions

  /** A decoded JSON value: objects decode to string-keyed dictionaries,
      arrays to lists. Numbers only matter here in that they are not strings. */
  datatype Json =
    | Null
    | Bool(b: bool)
    | Num(n: int)
    | Str(s: string)
    | Arr(elems: seq<Json>)
    | Obj(fields: map<string, Json>)

  /** `(x as Dictionary<string, object>)[name]`: the cast yields null for a
      non-object, and indexing null or an absent member throws. */
  function Member(x: Json, name: string): (r: Result<Json, Exception>)
    ensures r.Ok? <==> x.Obj? && name in x.fields
    ensures r.Ok? ==> r.value == x.fields[name]
    ensures !x.Obj? ==> r == Error(NullReference)
    ensures x.Obj? && name !in x.fields ==> r == Error(KeyNotFound)
  {
    match x
    case Obj(fields) => if name in fields then Ok(fields[name]) else Error(KeyNotFound)
    case _ => Error(NullReference)
  }

  /** `(x as Dictionary<string, object>)?[name]`: the null-conditional index
      turns a non-object into null, but an absent member still throws. */
  function MemberOrNull(x: Json, name: string): (r: Result<Json, Exception>)
    ensures r.Error? <==> x.Obj? && name !in x.fields
    ensures r.Error? ==> r.error == KeyNotFound
    ensures r.Ok? && x.Obj? ==> r.value == x.fields[name]
    ensures !x.Obj? ==> r == Ok(Null)
  {
    if x.Obj? then Member(x, name) else Ok(Null)
  }

  /** `x as string`. */
  function AsString(x: Json): Option<string> {
    if x.Str? then Some(x.s) else None
  }
}

=== FILE: loader.dfy ===
/** The load pipeline of `Localization` (Localization.cs:92-122, 158-186):
    which source the table comes from and how `Loaded` and `Failed` end up.

    Each external step is an abstract outcome: the connectivity flag, the
    sheet response (its text, or none), the GitHub response (its content, or
    none) and the cache file (absent, unreadable, or an item list). The
    modelled behaviour is the code's. A host for which
    `HasNetworkConnection()` is true reads only the cache file
    (Localization.cs:94-98). When neither remote response has bytes, the load
    sets `Loaded`, leaves `Failed` unset and does not read the cache file
    (Localization.cs:110-115). */
module Loader {
  import opened Wrappers
  import opened Exceptions
  import opened SerializableDictionary
  import opened Tables
  import opened SheetParser
  import Lookup

  /** The bytes of a cache file: either something `XmlSerializer` cannot
      read at all (not XML, a wrong root, a key or value that does not
      deserialize), or a well-formed document's item list. */
  datatype Content = Garbled | Items(doc: TableDoc)

  /** What the outside world does during one load. */
  datatype Sources = Sources(
    connected: bool,            // UnityModManager.HasNetworkConnection()
    sheet: Option<string>,      // the sheet response, UTF-8 decoded, or null bytes
    github: Option<Content>)    // the GitHub response, or null bytes

  /** The loader's observable state, and the cache file on disk. */
  datatype State = State(table: Table, loaded: bool, failed: bool, file: Option<Content>)

  /** A loader right after construction: empty table, neither flag set. */
  function Initial(file: Option<Content>): (s: State)
    ensures s.table.keys == [] && !s.loaded && !s.failed && s.file == file
  {
    State(Empty(), false, false, file)
  }

  /** The table a cache file yields, or `None` when the file is absent or
      reading it throws. */
  function ReadCache(file: Option<Content>): (r: Option<Table>)
    ensures r.Some? <==> file.Some? && file.value.Items? && DecodeTable(file.value.doc).Ok?
    ensures r.Some? ==> r.value == DecodeTable(file.value.doc).value
  {
    match file
    case Some(Items(doc)) =>
      (match DecodeTable(doc)
       case Ok(t) => Some(t)
       case Error(_) => None)
    case _ => None
  }

  /** `LoadFromFile` (Localization.cs:165-186): a readable cache replaces the
      table and sets `Loaded`; an absent or unreadable one sets both flags and
      leaves the table as it was. */
  function LoadFromFile(s: State): (r: State)
    ensures r.loaded
    ensures r.file == s.file
    ensures r.failed <==> s.failed || ReadCache(s.file).None?
    ensures ReadCache(s.file).Some? ==> r.table == ReadCache(s.file).value
    ensures ReadCache(s.file).None? ==> r.table == s.table
  {
    match ReadCache(s.file)
    case Some(t) => s.(table := t, loaded := true)
    case None => s.(loaded := true, failed := true)
  }

  /** The `Download` coroutine (Localization.cs:92-163), run once.
      - Connected: read the cache file only.
      - Otherwise, sheet bytes present: strip and parse them. On success the
        table is replaced, written to the cache file, and `Loaded` is set. An
        exception ends the coroutine with neither flag set and the table as
        the exception left it.
      - Sheet bytes absent, GitHub bytes present: they overwrite the cache
        file, which is then read.
      - Both absent: `Loaded` is set; the table and the file are untouched. */
  function Download(s: State, src: Sources, hooks: Hooks): (r: State)
    ensures src.connected ==> r == LoadFromFile(s)
    ensures !src.connected && src.sheet.None? && src.github.None? ==>
      r == s.(loaded := true)
    ensures !src.connected && src.sheet.None? && src.github.Some? ==>
      r == LoadFromFile(s.(file := src.github))
    ensures !src.connected && src.sheet.Some? && ParseSheet(s.table, src.sheet.value, hooks).Done? ==>
      var t := ParseSheet(s.table, src.sheet.value, hooks).table;
      r == s.(table := t, loaded := true, file := Some(Items(EncodeTable(t))))
    ensures !src.connected && src.sheet.Some? && ParseSheet(s.table, src.sheet.value, hooks).Threw? ==>
      r == s.(table := ParseSheet(s.table, src.sheet.value, hooks).partial)
  {
    if src.connected then LoadFromFile(s)
    else
      match src.sheet
      case None =>
        (match src.github
         case None => s.(loaded := true)
         case Some(bytes) => LoadFromFile(s.(file := Some(bytes))))
      case Some(text) =>
        match ParseSheet(s.table, text, hooks)
        case Threw(_, partial) => s.(table := partial)
        case Done(t) => s.(table := t, loaded := true, file := Some(Items(EncodeTable(t))))
  }

  /** The source a load reads the cache file from, if it reads one at all. */
  function CacheReadBy(file: Option<Content>, src: Sources): Option<Option<Content>> {
    if src.connected then Some(file)
    else if src.sheet.None? && src.github.Some? then Some(src.github)
    else None
  }

  /** How a fresh loader settles: `Failed` is set only when the cache file
      was read and could not be; `Failed` implies `Loaded`; and `Loaded`
      stays unset only when the sheet parse threw. */
  lemma SettledFlags(file: Option<Content>, src: Sources, hooks: Hooks)
    ensures var r := Download(Initial(file), src, hooks);
      && (r.failed ==> r.loaded)
      && (r.failed <==> CacheReadBy(file, src).Some? && ReadCache(CacheReadBy(file, src).value).None?)
      && (!r.loaded <==> !src.connected && src.sheet.Some?
                         && ParseSheet(Initial(file).table, src.sheet.value, hooks).Threw?)
  {
  }

  /** A successful cache read settles loaded and not failed, holding the
      decoded table. */
  lemma CacheReadSucceeds(file: Option<Content>, src: Sources, hooks: Hooks)
    ensures var read := CacheReadBy(file, src);
      var r := Download(Initial(file), src, hooks);
      read.Some? && ReadCache(read.value).Some? ==>
        r.loaded && !r.failed && r.table == ReadCache(read.value).value
  {
  }

  /** A table loaded from the sheet is what the next session reads back from
      the cache file the load wrote. */
  lemma SheetLoadPersists(s: State, src: Sources, hooks: Hooks)
    requires !src.connected && src.sheet.Some?
    requires ParseSheet(s.table, src.sheet.value, hooks).Done?
    ensures var r := Download(s, src, hooks);
      && r.loaded && r.failed == s.failed
      && ReadCache(r.file) == Some(r.table)
      && LoadFromFile(Initial(r.file)) == Initial(r.file).(table := r.table, loaded := true)
  {
    var t := ParseSheet(s.table, src.sheet.value, hooks).table;
    var file := Some(Items(EncodeTable(t)));
    assert Download(s, src, hooks) == s.(table := t, loaded := true, file := file);
    TableRoundTrip(t);
    assert ReadCache(file) == Some(t);
  }

  /** With neither remote source answering, the load settles loaded and not
      failed with the table it had, and never reads the cache file. */
  lemma RemoteSilenceKeepsTable(s: State, hooks: Hooks)
    ensures var r := Download(s, Sources(false, None, None), hooks);
      r.loaded && r.failed == s.failed && r.table == s.table && r.file == s.file
  {
  }

  /** An exception in the sheet branch leaves both flags unset, so `Get`
      finds nothing, while the indexer and `GetAll` see the table as the
      exception left it. */
  lemma SheetExceptionLeavesUnsettled(file: Option<Content>, src: Sources, hooks: Hooks, active: Language, key: string)
    requires !src.connected && src.sheet.Some?
    requires ParseSheet(Empty(), src.sheet.value, hooks).Threw?
    ensures var r := Download(Initial(file), src, hooks);
      && !r.loaded && !r.failed
      && r.table == ParseSheet(Empty(), src.sheet.value, hooks).partial
      && !Lookup.Get(r.table, r.loaded, r.failed, active, key).found
  {
  }

  /** A load that ends failed answers every `Get` with not found. */
  lemma FailedLoadFindsNothing(file: Option<Content>, src: Sources, hooks: Hooks, active: Language, key: string)
    requires Download(Initial(file), src, hooks).failed
    ensures var r := Download(Initial(file), src, hooks);
      Lookup.Get(r.table, r.loaded, r.failed, active, key) == Lookup.Answer(false, None)
  {
  }

  /** A cache file with a greeting in English and French, read by a
      connected host whose active language is French, yields the French
      text. */
  lemma CachedGreetingInFrench(hooks: Hooks)
    ensures var doc: TableDoc := [("greeting", [(English, Some("Hello")), (Other("French"), Some("Bonjour"))])];
      var r := Download(Initial(Some(Items(doc))), Sources(true, None, None), hooks);
      && r.loaded && !r.failed
      && Lookup.Get(r.table, r.loaded, r.failed, Other("French"), "greeting") == Lookup.Answer(true, Some("Bonjour"))
  {
    var doc: TableDoc := [("greeting", [(English, Some("Hello")), (Other("French"), Some("Bonjour"))])];
    var t := GreetingTable(doc);
    assert ReadCache(Some(Items(doc))) == Some(t);
    var r := Download(Initial(Some(Items(doc))), Sources(true, None, None), hooks);
    assert r == LoadFromFile(Initial(Some(Items(doc))));
    Lookup.ActiveTextFound(t, Other("French"), "greeting");
  }

  /** The greeting document reads as one key whose map has both texts. */
  lemma GreetingTable(doc: TableDoc) returns (t: Table)
    requires doc == [("greeting", [(English, Some("Hello")), (Other("French"), Some("Bonjour"))])]
    ensures DecodeTable(doc) == Ok(t)
    ensures "greeting" in t.items && Other("French") in t.items["greeting"].items
    ensures t.items["greeting"].items[Other("French")] == Some("Bonjour")
  {
    var inner := doc[0].1;
    var e: LangMap := Empty();
    var m1 := Add(e, English, Some("Hello")).value;
    var m := Add(m1, Other("French"), Some("Bonjour")).value;
    assert ReadFrom(m1, inner[1..], ReadText) == ReadFrom(m, inner[2..], ReadText);
    assert ReadFrom(e, inner, ReadText) == ReadFrom(m1, inner[1..], ReadText);
    assert ReadLangMap(inner) == Ok(m);
    var none: Table := Empty();
    t := Add(none, "greeting", m).value;
    assert ReadFrom(none, doc, ReadLangMap) == ReadFrom(t, doc[1..], ReadLangMap);
  }

  /** With English and French texts and German active, `Get` returns the
      English text. */
  lemma EnglishFallback(t: Table, key: string, english: string, french: string)
    requires key in t.items
    requires t.items[key].keys == [English, Other("French")]
    requires t.items[key].items == map[English := Some(english), Other("French") := Some(french)]
    ensures Lookup.Get(t, true, false, Other("German"), key) == Lookup.Answer(true, Some(english))
  {
    var m := t.items[key];
    var pref := Lookup.Preference(Other("German"), m);
    assert pref[0] == Other("German") && pref[1] == English;
    assert Lookup.FirstPresent(pref, m, 1);
  }
}

=== FILE: lookup.dfy ===
/** The read accessors of `Localization` (Localization.cs:57-90): the
    indexer, `Get` and `GetAll`. The active language (`RDString.language`)
    is a parameter. The substitution parameters are accepted and, as in the
    source, never change the returned text: `ReplaceParameters`' result is
    discarded. */
module Lookup {
  import opened Wrappers
  import opened Exceptions
  import opened SerializableDictionary
  import opened Tables

  /** The caller's placeholder values, handed to the host's substitution.
      Their values are never read, so their type does not matter here. */
  type Parameters = map<string, string>

  /** The indexer `this[key, defaultLanguage, parameters]` (Localization.cs:57-67).
      It ignores `Loaded` and `Failed`. It throws for an absent key, and for a
      key whose map has neither the active language nor the default one;
      otherwise it returns the active language's text, else the default's. */
  function Indexer(t: Table, active: Language, key: string, defaultLanguage: Language := English,
                   parameters: Option<Parameters> := None): (r: Result<Text, Exception>)
    ensures r.Ok? <==> key in t.items && (active in t.items[key].items || defaultLanguage in t.items[key].items)
    ensures r.Error? ==> r.error == KeyNotFound
    ensures r.Ok? && active in t.items[key].items ==> r.value == t.items[key].items[active]
    ensures r.Ok? && active !in t.items[key].items ==> r.value == t.items[key].items[defaultLanguage]
  {
    if key !in t.items then Error(KeyNotFound)
    else
      var dict := t.items[key];
      if active in dict.items then Ok(dict.items[active])
      else if defaultLanguage in dict.items then Ok(dict.items[defaultLanguage])
      else Error(KeyNotFound)
  }

  /** The outcome of `Get`: its return value and its `out` value. */
  datatype Answer = Answer(found: bool, value: Text)

  /** The languages `Get` tries, in order: the active one, English, then the
      map's own languages in enumeration order. */
  function Preference(active: Language, m: LangMap): seq<Language> {
    [active, English] + m.keys
  }

  /** Position `i` holds the first language of `pref` that `m` has. */
  ghost predicate FirstPresent(pref: seq<Language>, m: LangMap, i: int) {
    && 0 <= i < |pref|
    && pref[i] in m.items
    && forall j :: 0 <= j < i ==> pref[j] !in m.items
  }

  /** `Get(key, out value, parameters)` (Localization.cs:69-85). Before the
      load has settled successfully it finds nothing, whatever the key.
      Afterwards it yields the text of the most preferred language the key's
      map has, and reports found exactly when that text is non-null. */
  function Get(t: Table, loaded: bool, failed: bool, active: Language, key: string,
               parameters: Option<Parameters> := None): (r: Answer)
    ensures r.found <==> r.value.Some?
    ensures !loaded || failed ==> r == Answer(false, None)
    ensures key !in t.items ==> !r.found
    ensures loaded && !failed && key in t.items && |t.items[key].keys| > 0 ==>
      exists i :: FirstPresent(Preference(active, t.items[key]), t.items[key], i)
        && r.value == t.items[key].items[Preference(active, t.items[key])[i]]
    ensures key in t.items && |t.items[key].keys| == 0 ==> !r.found
  {
    if !loaded || failed then Answer(false, None)
    else
      var value :=
        if key !in t.items then None
        else
          var v := t.items[key];
          if active in v.items then v.items[active]
          else if English in v.items then v.items[English]
          else if |v.keys| != 0 then v.items[v.keys[0]]
          else None;
      assert key in t.items && |t.items[key].keys| > 0 ==>
        var v := t.items[key];
        var pref := Preference(active, v);
        (active in v.items ==> FirstPresent(pref, v, 0))
        && (active !in v.items && English in v.items ==> FirstPresent(pref, v, 1))
        && (active !in v.items && English !in v.items ==> pref[2] == v.keys[0] && FirstPresent(pref, v, 2));
      Answer(value.Some?, value)
  }

  /** `GetAll(key)` (Localization.cs:87-90): a copy of the key's whole
      language map, or null for an absent key. It ignores `Loaded` and
      `Failed` and applies no language preference. */
  function GetAll(t: Table, key: string, parameters: Option<Parameters> := None): (r: Option<LangMap>)
    ensures r.Some? <==> key in t.items
    ensures r.Some? ==> r.value.keys == t.items[key].keys
    ensures r.Some? ==> forall l :: l in r.value.items <==> l in t.items[key].items
    ensures r.Some? ==> forall l :: l in r.value.items ==> r.value.items[l] == t.items[key].items[l]
  {
    if key in t.items then Some(Copy(t.items[key])) else None
  }

  /** Once loaded, `Get` and the indexer with its default English agree
      whenever the indexer does not throw. */
  lemma GetAgreesWithIndexer(t: Table, active: Language, key: string)
    requires Indexer(t, active, key).Ok?
    ensures Get(t, true, false, active, key).value == Indexer(t, active, key).value
  {
    var m := t.items[key];
    var pref := Preference(active, m);
    assert pref[0] == active && pref[1] == English;
    assert active in m.keys || English in m.keys;
    if active in m.items {
      assert FirstPresent(pref, m, 0);
    } else {
      assert FirstPresent(pref, m, 1);
    }
  }

  /** A text `Get` finds is one that `GetAll` lists for the same key. */
  lemma GetFindsWhatGetAllLists(t: Table, loaded: bool, failed: bool, active: Language, key: string)
    requires Get(t, loaded, failed, active, key).found
    ensures GetAll(t, key).Some?
    ensures exists l ::
      && l in GetAll(t, key).value.items
      && GetAll(t, key).value.items[l] == Get(t, loaded, failed, active, key).value
  {
    var m := t.items[key];
    var i :| FirstPresent(Preference(active, m), m, i)
      && Get(t, loaded, failed, active, key).value == m.items[Preference(active, m)[i]];
    var l := Preference(active, m)[i];
    assert l in GetAll(t, key).value.items;
  }

  /** The substitution parameters never change what `Get` or the indexer
      return. */
  lemma ParametersIgnored(t: Table, loaded: bool, failed: bool, active: Language, key: string,
                          defaultLanguage: Language, p: Option<Parameters>, q: Option<Parameters>)
    ensures Get(t, loaded, failed, active, key, p) == Get(t, loaded, failed, active, key, q)
    ensures Indexer(t, active, key, defaultLanguage, p) == Indexer(t, active, key, defaultLanguage, q)
  {
  }

  /** Once loaded, a key whose map has the active language yields that
      language's text, found exactly when it is non-null. */
  lemma ActiveTextFound(t: Table, active: Language, key: string)
    requires key in t.items && active in t.items[key].items
    ensures Get(t, true, false, active, key) == Answer(t.items[key].items[active].Some?, t.items[key].items[active])
  {
    var m := t.items[key];
    assert Preference(active, m)[0] == active;
    assert FirstPresent(Preference(active, m), m, 0);
  }

  /** A stored null text for the active language is returned as not found;
      `Get` does not go on to English. */
  lemma NullActiveTextHidesEnglish(t: Table, active: Language, key: string)
    requires key in t.items
    requires active in t.items[key].items && t.items[key].items[active] == None
    requires English in t.items[key].items && t.items[key].items[English].Some?
    ensures !Get(t, true, false, active, key).found
  {
    var m := t.items[key];
    var pref := Preference(active, m);
    assert pref[0] == active;
    assert active in m.keys;
    assert FirstPresent(pref, m, 0);
    assert Get(t, true, false, active, key).value == None;
  }
}

=== FILE: sheet.dfy ===
/** The sheet branch of `Download` (Localization.cs:123-157): strip the
    response envelope, walk the decoded `table.rows[].c[].v` tree, and build
    the key -> language -> text table. Every C# cast and index becomes an
    explicit shape check; every exception the code would raise becomes a
    `Threw` result carrying the table as the exception left it. */
module SheetParser {
  import opened Wrappers
  import opened Exceptions
  import opened Json
  import opened SerializableDictionary
  import opened Tables
  import opened Escapes

  /** Length of the wrapper the endpoint puts before and after its JSON. */
  const PrefixLength := 47
  const SuffixLength := 2

  /** The caller's `OnLoad` delegate, applied to each parsed entry. */
  type Hook = Entry -> Entry

  /** The collaborators the parser calls but does not define: the JSON
      decoder, `Enum.TryParse<SystemLanguage>` and the optional hook. */
  datatype Hooks = Hooks(
    decode: string -> Json,
    parseLanguage: string -> Option<Language>,
    onLoad: Option<Hook>)

  /** How the parse ended: normally with the finished table, or by an
      exception, with the table as far as it had been filled. */
  datatype Run = Done(table: Table) | Threw(error: Exception, partial: Table)

  /** `strData.Substring(47, strData.Length - 49)`: drops exactly the first
      47 and the last 2 characters; a shorter text makes `Substring` throw. */
  function Strip(text: string): (r: Result<string, Exception>)
    ensures r.Ok? <==> |text| >= PrefixLength + SuffixLength
    ensures r.Error? ==> r.error == ArgumentOutOfRange
    ensures r.Ok? ==> |r.value| == |text| - PrefixLength - SuffixLength
    ensures r.Ok? ==> text == text[..PrefixLength] + r.value + text[|text| - SuffixLength..]
  {
    if |text| < PrefixLength + SuffixLength then Error(ArgumentOutOfRange)
    else Ok(text[PrefixLength..|text| - SuffixLength])
  }

  /** `(cell as Dictionary<string, object>)?["v"] as string`. */
  function CellText(cell: Json): (r: Result<Option<string>, Exception>)
    ensures r.Error? <==> cell.Obj? && "v" !in cell.fields
    ensures r.Error? ==> r.error == KeyNotFound
    ensures r.Ok? && r.value.Some? <==> cell.Obj? && "v" in cell.fields && cell.fields["v"].Str?
    ensures r.Ok? && r.value.Some? ==> r.value.value == cell.fields["v"].s
  {
    var v :- MemberOrNull(cell, "v");
    Ok(AsString(v))
  }

  /** The cell carries a text that is neither null nor empty. */
  predicate HasText(cell: Json) {
    cell.Obj? && "v" in cell.fields && cell.fields["v"].Str? && cell.fields["v"].s != ""
  }

  /** The language a header cell names (Localization.cs:128). */
  function HeaderLanguage(cell: Json, parseLanguage: string -> Option<Language>): (r: Result<Language, Exception>)
    ensures r.Error? <==> cell.Obj? && "v" !in cell.fields
    ensures r.Ok? && !(cell.Obj? && cell.fields["v"].Str?) ==> r.value == Unknown
    ensures r.Ok? && r.value != Unknown ==>
      cell.Obj? && cell.fields["v"].Str? && parseLanguage(cell.fields["v"].s) == Some(r.value)
    ensures cell.Obj? && "v" in cell.fields && cell.fields["v"].Str? ==>
      r == Ok(parseLanguage(cell.fields["v"].s).GetOr(Unknown))
  {
    var v :- CellText(cell);
    Ok(if v.None? then Unknown else parseLanguage(v.value).GetOr(Unknown))
  }

  /** The `Select(...).ToList()` over the header row's cells: the first cell
      whose lookup throws ends it. */
  function HeaderLanguages(cells: seq<Json>, parseLanguage: string -> Option<Language>)
    : (r: Result<seq<Language>, Exception>)
    ensures r.Ok? <==> forall j :: 0 <= j < |cells| ==> HeaderLanguage(cells[j], parseLanguage).Ok?
    ensures r.Ok? ==> |r.value| == |cells|
    ensures r.Ok? ==> forall j :: 0 <= j < |cells| ==> HeaderLanguage(cells[j], parseLanguage) == Ok(r.value[j])
  {
    if |cells| == 0 then Ok([])
    else
      var l :- HeaderLanguage(cells[0], parseLanguage);
      var ls :- HeaderLanguages(cells[1..], parseLanguage);
      assert forall j :: 1 <= j < |cells| ==> cells[j] == cells[1..][j - 1];
      Ok([l] + ls)
  }

  /** The row holds a non-empty `c` list of cells. */
  predicate IsRow(row: Json) {
    row.Obj? && "c" in row.fields && row.fields["c"].Arr? && |row.fields["c"].elems| > 0
  }

  /** The languages of the data columns (Localization.cs:127-131): the first
      row's cells, with the key column's cell dropped. */
  function HeaderRow(row: Json, parseLanguage: string -> Option<Language>): (r: Result<seq<Language>, Exception>)
    ensures r.Ok? <==> IsRow(row) && forall j :: 0 <= j < |row.fields["c"].elems| ==>
      HeaderLanguage(row.fields["c"].elems[j], parseLanguage).Ok?
    ensures r.Ok? ==> |r.value| == |row.fields["c"].elems| - 1
    ensures r.Ok? ==> forall j :: 0 <= j < |r.value| ==>
      HeaderLanguage(row.fields["c"].elems[j + 1], parseLanguage) == Ok(r.value[j])
  {
    var c :- Member(row, "c");
    if !c.Arr? then Error(ArgumentNull)
    else
      var langs :- HeaderLanguages(c.elems, parseLanguage);
      if |langs| == 0 then Error(ArgumentOutOfRange)
      else Ok(langs[1..])
  }

  /** `table.rows` of the decoded payload (Localization.cs:126-127), which
      must be a non-empty list for `First()`. */
  function Rows(root: Json): (r: Result<seq<Json>, Exception>)
    ensures r.Ok? ==> |r.value| > 0
    ensures r.Ok? <==>
      && root.Obj? && "table" in root.fields
      && root.fields["table"].Obj? && "rows" in root.fields["table"].fields
      && root.fields["table"].fields["rows"].Arr?
      && |root.fields["table"].fields["rows"].elems| > 0
    ensures r.Ok? ==> r.value == root.fields["table"].fields["rows"].elems
  {
    var table :- Member(root, "table");
    var rows :- Member(table, "rows");
    if !rows.Arr? then Error(ArgumentNull)
    else if |rows.elems| == 0 then Error(InvalidOperation)
    else Ok(rows.elems)
  }

  /** Column `j` of a data row (key column dropped) is stored: its header
      language is known and its cell carries a non-empty text. */
  ghost predicate Stored(langs: seq<Language>, cells: seq<Json>, j: int) {
    0 <= j < |cells| && j < |langs| && langs[j] != Unknown && HasText(cells[j])
  }

  /** The inner loop of Localization.cs:140-149 from column `i` on, with the
      languages stored so far in `acc`: each cell under a known language with
      a non-empty text is unescaped and added under that language. Whatever
      `acc` held stays as it was. */
  function ParseCells(langs: seq<Language>, cells: seq<Json>, i: nat, acc: LangMap): (r: Result<LangMap, Exception>)
    requires i <= |cells|
    ensures r.Ok? ==> forall l :: l in acc.items ==> l in r.value.items && r.value.items[l] == acc.items[l]
    decreases |cells| - i
  {
    if i == |cells| then Ok(acc)
    else if i >= |langs| then Error(ArgumentOutOfRange)
    else if langs[i] == Unknown then ParseCells(langs, cells, i + 1, acc)
    else
      match CellText(cells[i])
      case Error(e) => Error(e)
      case Ok(text) =>
        if text.None? || text.value == "" then ParseCells(langs, cells, i + 1, acc)
        else
          match Add(acc, langs[i], Some(Unescape(text.value)))
          case Error(e) => Error(e)
          case Ok(acc') => ParseCells(langs, cells, i + 1, acc')
  }

  /** The row from column `i` on is accepted by `ParseCells`: it is no wider
      than the header, every cell under a known language can be read, no
      stored column's language is already in `acc`, and no two stored
      columns share a language. */
  ghost predicate CellsAccepted(langs: seq<Language>, cells: seq<Json>, i: nat, acc: LangMap)
    requires i <= |cells|
  {
    && (i == |cells| || |cells| <= |langs|)
    && (forall j :: i <= j < |cells| && langs[j] != Unknown ==> CellText(cells[j]).Ok?)
    && (forall j :: i <= j < |cells| && Stored(langs, cells, j) ==> langs[j] !in acc.items)
    && (forall j, k :: i <= j < k < |cells| && Stored(langs, cells, j) && Stored(langs, cells, k) ==> langs[j] != langs[k])
  }

  /** The languages of the stored columns from `i` on, in column order. */
  ghost function StoredLanguages(langs: seq<Language>, cells: seq<Json>, i: nat): seq<Language>
    requires i <= |cells|
    decreases |cells| - i
  {
    if i == |cells| then []
    else if Stored(langs, cells, i) then [langs[i]] + StoredLanguages(langs, cells, i + 1)
    else StoredLanguages(langs, cells, i + 1)
  }

  /** A successful `ParseCells` enumerates the languages of `acc` and then
      those of the stored columns, in column order, and nothing else. */
  lemma {:induction false} ParseCellsKeys(langs: seq<Language>, cells: seq<Json>, i: nat, acc: LangMap)
    requires i <= |cells|
    requires ParseCells(langs, cells, i, acc).Ok?
    ensures ParseCells(langs, cells, i, acc).value.keys == acc.keys + StoredLanguages(langs, cells, i)
    decreases |cells| - i
  {
    if i == |cells| {
      assert acc.keys + [] == acc.keys;
    } else if !Stored(langs, cells, i) {
      if langs[i] != Unknown {
        assert !HasText(cells[i]);
      }
      assert ParseCells(langs, cells, i, acc) == ParseCells(langs, cells, i + 1, acc);
      assert StoredLanguages(langs, cells, i) == StoredLanguages(langs, cells, i + 1);
      ParseCellsKeys(langs, cells, i + 1, acc);
    } else {
      var acc' := Add(acc, langs[i], Some(Unescape(cells[i].fields["v"].s))).value;
      assert ParseCells(langs, cells, i, acc) == ParseCells(langs, cells, i + 1, acc');
      ParseCellsKeys(langs, cells, i + 1, acc');
      var later := StoredLanguages(langs, cells, i + 1);
      assert StoredLanguages(langs, cells, i) == [langs[i]] + later;
      assert acc'.keys + later == acc.keys + ([langs[i]] + later);
    }
  }

  /** `ParseCells` succeeds exactly on the rows it accepts. */
  lemma {:induction false} ParseCellsSucceeds(langs: seq<Language>, cells: seq<Json>, i: nat, acc: LangMap)
    requires i <= |cells|
    ensures ParseCells(langs, cells, i, acc).Ok? <==> CellsAccepted(langs, cells, i, acc)
    decreases |cells| - i
  {
    if i == |cells| {
    } else if i >= |langs| {
    } else if langs[i] == Unknown || CellText(cells[i]).Error? || !Stored(langs, cells, i) {
      if langs[i] != Unknown && CellText(cells[i]).Ok? {
        assert !HasText(cells[i]);
      }
      if langs[i] == Unknown || CellText(cells[i]).Ok? {
        ParseCellsSucceeds(langs, cells, i + 1, acc);
        AcceptedSkip(langs, cells, i, acc);
      }
    } else if langs[i] in acc.items {
      assert !CellsAccepted(langs, cells, i, acc);
    } else {
      var acc' := Add(acc, langs[i], Some(Unescape(cells[i].fields["v"].s))).value;
      assert ParseCells(langs, cells, i, acc) == ParseCells(langs, cells, i + 1, acc');
      ParseCellsSucceeds(langs, cells, i + 1, acc');
      AcceptedAdd(langs, cells, i, acc, acc');
    }
  }

  lemma AcceptedSkip(langs: seq<Language>, cells: seq<Json>, i: nat, acc: LangMap)
    requires i < |cells| && i < |langs|
    requires langs[i] == Unknown || CellText(cells[i]).Ok?
    requires !Stored(langs, cells, i)
    ensures CellsAccepted(langs, cells, i, acc) <==> CellsAccepted(langs, cells, i + 1, acc)
  {
  }

  lemma AcceptedAdd(langs: seq<Language>, cells: seq<Json>, i: nat, acc: LangMap, acc': LangMap)
    requires i < |cells| && Stored(langs, cells, i)
    requires acc'.items.Keys == acc.items.Keys + {langs[i]}
    ensures CellsAccepted(langs, cells, i, acc) <==> CellsAccepted(langs, cells, i + 1, acc') && langs[i] !in acc.items
  {
    if CellsAccepted(langs, cells, i + 1, acc') && langs[i] !in acc.items {
      forall j, k | i <= j < k < |cells| && Stored(langs, cells, j) && Stored(langs, cells, k)
        ensures langs[j] != langs[k]
      {
        if j == i {
          assert langs[k] !in acc'.items;
        }
      }
    }
  }

  /** After a successful `ParseCells`, each stored column's language maps to
      the unescaped text of its cell. */
  lemma {:induction false} ParseCellsStores(langs: seq<Language>, cells: seq<Json>, i: nat, acc: LangMap)
    requires i <= |cells|
    requires ParseCells(langs, cells, i, acc).Ok?
    ensures forall j :: i <= j < |cells| && Stored(langs, cells, j) ==>
      var m := ParseCells(langs, cells, i, acc).value;
      langs[j] in m.items && m.items[langs[j]] == Some(Unescape(cells[j].fields["v"].s))
    decreases |cells| - i
  {
    if i < |cells| {
      if !Stored(langs, cells, i) {
        if langs[i] != Unknown {
          assert !HasText(cells[i]);
        }
        ParseCellsStores(langs, cells, i + 1, acc);
      } else {
        var acc' := Add(acc, langs[i], Some(Unescape(cells[i].fields["v"].s))).value;
        assert ParseCells(langs, cells, i, acc) == ParseCells(langs, cells, i + 1, acc');
        ParseCellsStores(langs, cells, i + 1, acc');
      }
    }
  }

  /** `ParseCells` adds no language other than those of stored columns. */
  lemma {:induction false} ParseCellsAddsOnlyStored(langs: seq<Language>, cells: seq<Json>, i: nat, acc: LangMap)
    requires i <= |cells|
    requires ParseCells(langs, cells, i, acc).Ok?
    ensures forall l :: l in ParseCells(langs, cells, i, acc).value.items && l !in acc.items ==>
      exists j :: i <= j < |cells| && Stored(langs, cells, j) && langs[j] == l
    decreases |cells| - i
  {
    if i < |cells| {
      if !Stored(langs, cells, i) {
        if langs[i] != Unknown {
          assert !HasText(cells[i]);
        }
        ParseCellsAddsOnlyStored(langs, cells, i + 1, acc);
      } else {
        var acc' := Add(acc, langs[i], Some(Unescape(cells[i].fields["v"].s))).value;
        assert ParseCells(langs, cells, i, acc) == ParseCells(langs, cells, i + 1, acc');
        ParseCellsAddsOnlyStored(langs, cells, i + 1, acc');
        assert Stored(langs, cells, i);
      }
    }
  }

  /** One data row (Localization.cs:134-149): a row whose key cell is null or
      has a null or empty text yields no entry; otherwise the entry's key is
      that text and its map holds only known languages. */
  function ParseRow(langs: seq<Language>, row: Json): (r: Result<Option<Entry>, Exception>)
    ensures r.Ok? <==>
      && IsRow(row)
      && CellText(row.fields["c"].elems[0]).Ok?
      && (HasText(row.fields["c"].elems[0]) ==> CellsAccepted(langs, row.fields["c"].elems[1..], 0, Empty()))
    ensures r.Ok? ==> (r.value.None? <==> !HasText(row.fields["c"].elems[0]))
    ensures IsRow(row) && CellText(row.fields["c"].elems[0]).Ok? && !HasText(row.fields["c"].elems[0])
      ==> r == Ok(None)
    ensures r.Ok? && r.value.Some? ==>
      r.value.value.0 == row.fields["c"].elems[0].fields["v"].s && r.value.value.0 != ""
    ensures r.Ok? && r.value.Some? ==> Unknown !in r.value.value.1.items
    ensures r.Ok? && r.value.Some? ==> r.value.value.1.keys == StoredLanguages(langs, row.fields["c"].elems[1..], 0)
    ensures r.Ok? && r.value.Some? ==> forall j :: Stored(langs, row.fields["c"].elems[1..], j) ==>
      var text := row.fields["c"].elems[1..][j].fields["v"].s;
      langs[j] in r.value.value.1.items && r.value.value.1.items[langs[j]] == Some(Unescape(text))
  {
    var c :- Member(row, "c");
    if !c.Arr? then Error(NullReference)
    else if |c.elems| == 0 then Error(ArgumentOutOfRange)
    else
      var key :- CellText(c.elems[0]);
      if key.None? || key.value == "" then Ok(None)
      else
        ParseCellsSucceeds(langs, c.elems[1..], 0, Empty());
        var m :- ParseCells(langs, c.elems[1..], 0, Empty());
        ParseCellsStores(langs, c.elems[1..], 0, Empty());
        ParseCellsKeys(langs, c.elems[1..], 0, Empty());
        ParseCellsAddsOnlyStored(langs, c.elems[1..], 0, Empty());
        Ok(Some((key.value, m)))
  }

  /** The entry actually inserted (Localization.cs:150-155): the hook's
      result when a hook is supplied, the parsed entry otherwise. */
  function Apply(onLoad: Option<Hook>, e: Entry): Entry {
    match onLoad
    case Some(f) => f(e)
    case None => e
  }

  /** Reference definition: parse every data row first, then collect the
      entries to insert, in row order. */
  function ParseRows(langs: seq<Language>, rows: seq<Json>, onLoad: Option<Hook>): (r: Result<seq<Entry>, Exception>)
    ensures r.Ok? <==> forall j :: 0 <= j < |rows| ==> ParseRow(langs, rows[j]).Ok?
    ensures r.Ok? && onLoad.None? ==> forall j :: 0 <= j < |r.value| ==>
      r.value[j].0 != "" && Unknown !in r.value[j].1.items
  {
    if |rows| == 0 then Ok([])
    else
      var e :- ParseRow(langs, rows[0]);
      var es :- ParseRows(langs, rows[1..], onLoad);
      assert forall j :: 1 <= j < |rows| ==> rows[j] == rows[1..][j - 1];
      Ok(if e.Some? then [Apply(onLoad, e.value)] + es else es)
  }

  /** `t` extends `acc`: it enumerates `acc`'s keys first, in the same order,
      and maps each of them to the same language map. */
  ghost predicate Extends(t: Table, acc: Table) {
    && |acc.keys| <= |t.keys|
    && t.keys[..|acc.keys|] == acc.keys
    && forall k :: k in acc.items ==> k in t.items && t.items[k] == acc.items[k]
  }

  lemma ExtendsByAdd(acc: Table, acc': Table, kv: Entry)
    requires Add(acc, kv.0, kv.1) == Ok(acc')
    ensures Extends(acc', acc)
  {
    assert (acc.keys + [kv.0])[..|acc.keys|] == acc.keys;
  }

  lemma ExtendsTransitive(a: Table, b: Table, c: Table)
    requires Extends(b, a) && Extends(c, b)
    ensures Extends(c, a)
  {
    assert c.keys[..|a.keys|] == c.keys[..|b.keys|][..|a.keys|];
  }

  /** The row loop of Localization.cs:132-157: parse a row, skip it if it has
      no key, pass it through the hook, and `Add` it to the table, where a key
      already present throws. Whether it finishes or throws, the table only
      grows: the entries it started from stay, in their order, with their
      maps. */
  function Ingest(langs: seq<Language>, rows: seq<Json>, onLoad: Option<Hook>, acc: Table): (r: Run)
    ensures r.Done? ==> Extends(r.table, acc)
    ensures r.Threw? ==> Extends(r.partial, acc)
    decreases |rows|
  {
    if |rows| == 0 then
      assert acc.keys[..|acc.keys|] == acc.keys;
      Done(acc)
    else
      match ParseRow(langs, rows[0])
      case Error(e) =>
        assert acc.keys[..|acc.keys|] == acc.keys;
        Threw(e, acc)
      case Ok(None) => Ingest(langs, rows[1..], onLoad, acc)
      case Ok(Some(entry)) =>
        var kv := Apply(onLoad, entry);
        match Add(acc, kv.0, kv.1)
        case Error(e) =>
          assert acc.keys[..|acc.keys|] == acc.keys;
          Threw(e, acc)
        case Ok(acc') =>
          var r := Ingest(langs, rows[1..], onLoad, acc');
          ExtendsByAdd(acc, acc', kv);
          if r.Done? then ExtendsTransitive(acc, acc', r.table); r
          else ExtendsTransitive(acc, acc', r.partial); r
  }

  /** The outcome `r` of the row loop started from `acc` matches the entries
      `es` the reference definition collects: the loop finishes iff every row
      parses and the inserted keys are new and pairwise distinct; the
      finished table enumerates the old keys and then the inserted ones in
      row order, keeps the old entries and maps each inserted key to its
      entry's map; and when every row parses, a repeated key throws
      `DuplicateKey` rather than overwriting. */
  ghost predicate Agrees(r: Run, es: Result<seq<Entry>, Exception>, acc: Table) {
    && (r.Done? <==> es.Ok? && Distinct(acc.keys + KeysOf(es.value)))
    && (r.Done? ==> r.table.keys == acc.keys + KeysOf(es.value))
    && (r.Done? ==> forall k :: k in acc.items ==> r.table.items[k] == acc.items[k])
    && (r.Done? ==> forall j :: 0 <= j < |es.value| ==> r.table.items[es.value[j].0] == es.value[j].1)
    && (es.Ok? && !Distinct(acc.keys + KeysOf(es.value)) ==> r.Threw? && r.error == DuplicateKey)
  }

  /** `es` with the entry `kv` collected in front of it. */
  function Prepend(kv: Entry, es: Result<seq<Entry>, Exception>): Result<seq<Entry>, Exception> {
    match es
    case Ok(v) => Ok([kv] + v)
    case Error(e) => Error(e)
  }

  lemma {:induction false} IngestMatchesParseRows(langs: seq<Language>, rows: seq<Json>, onLoad: Option<Hook>, acc: Table)
    ensures Agrees(Ingest(langs, rows, onLoad, acc), ParseRows(langs, rows, onLoad), acc)
    decreases |rows|
  {
    if |rows| == 0 {
      var none: seq<Entry> := [];
      assert acc.keys + KeysOf(none) == acc.keys;
    } else {
      var rest := rows[1..];
      match ParseRow(langs, rows[0])
      case Error(_) =>
      case Ok(None) =>
        IngestMatchesParseRows(langs, rest, onLoad, acc);
      case Ok(Some(entry)) =>
        var kv := Apply(onLoad, entry);
        var es' := ParseRows(langs, rest, onLoad);
        assert ParseRows(langs, rows, onLoad) == Prepend(kv, es');
        if kv.0 in acc.items {
          if es'.Ok? {
            KeyAlreadyPresent(acc, kv, es'.value);
          }
        } else {
          var acc' := Add(acc, kv.0, kv.1).value;
          assert Ingest(langs, rows, onLoad, acc) == Ingest(langs, rest, onLoad, acc');
          IngestMatchesParseRows(langs, rest, onLoad, acc');
          AgreesAfterInsert(Ingest(langs, rest, onLoad, acc'), es', acc, acc', kv);
        }
    }
  }

  /** The induction step for a row whose entry is inserted as a new key. */
  lemma AgreesAfterInsert(r: Run, es': Result<seq<Entry>, Exception>, acc: Table, acc': Table, kv: Entry)
    requires Add(acc, kv.0, kv.1) == Ok(acc')
    requires Agrees(r, es', acc')
    ensures Agrees(r, Prepend(kv, es'), acc)
  {
    if es'.Ok? {
      InsertedKeys(acc, acc', kv, es'.value);
    }
  }

  lemma KeyAlreadyPresent(acc: Table, kv: Entry, es: seq<Entry>)
    requires kv.0 in acc.items
    ensures !Distinct(acc.keys + KeysOf([kv] + es))
  {
    var all := acc.keys + KeysOf([kv] + es);
    var i :| 0 <= i < |acc.keys| && acc.keys[i] == kv.0;
    assert all[i] == all[|acc.keys|];
  }

  lemma InsertedKeys(acc: Table, acc': Table, kv: Entry, es: seq<Entry>)
    requires acc'.keys == acc.keys + [kv.0]
    ensures acc.keys + KeysOf([kv] + es) == acc'.keys + KeysOf(es)
    ensures forall j :: 1 <= j < |[kv] + es| ==> ([kv] + es)[j] == es[j - 1]
  {
    assert KeysOf([kv] + es) == [kv.0] + KeysOf(es);
  }

  /** The sheet branch from the decoded tree on, after `localizations.Clear()`:
      a malformed tree throws with the table left empty. */
  function ParseTree(root: Json, parseLanguage: string -> Option<Language>, onLoad: Option<Hook>): (r: Run)
    ensures r.Threw? && (Rows(root).Error? || HeaderRow(Rows(root).value[0], parseLanguage).Error?)
      ==> r.partial.keys == []
    ensures r.Done? ==> Rows(root).Ok? && HeaderRow(Rows(root).value[0], parseLanguage).Ok?
    ensures Layout(root, parseLanguage).Some? ==>
      var layout := Layout(root, parseLanguage).value;
      var es := ParseRows(layout.0, layout.1, onLoad);
      && (r.Done? <==> es.Ok? && Distinct(KeysOf(es.value)))
      && (r.Done? ==> r.table.keys == KeysOf(es.value))
  {
    match Rows(root)
    case Error(e) => Threw(e, Empty())
    case Ok(rows) =>
      match HeaderRow(rows[0], parseLanguage)
      case Error(e) => Threw(e, Empty())
      case Ok(langs) =>
        var e: Table := Empty();
        IngestMatchesParseRows(langs, rows[1..], onLoad, e);
        var es := ParseRows(langs, rows[1..], onLoad);
        assert es.Ok? ==> e.keys + KeysOf(es.value) == KeysOf(es.value);
        Ingest(langs, rows[1..], onLoad, e)
  }

  /** The whole sheet branch of `Download` on the response text, given the
      table held before it. A response too short to strip throws before the
      table is cleared. */
  function ParseSheet(prior: Table, text: string, hooks: Hooks): (r: Run)
    ensures Strip(text).Error? ==> r == Threw(ArgumentOutOfRange, prior)
    ensures Strip(text).Ok? ==> r == ParseTree(hooks.decode(Strip(text).value), hooks.parseLanguage, hooks.onLoad)
  {
    match Strip(text)
    case Error(e) => Threw(e, prior)
    case Ok(body) => ParseTree(hooks.decode(body), hooks.parseLanguage, hooks.onLoad)
  }

  /** The data rows and column languages a decoded payload yields. */
  function Layout(root: Json, parseLanguage: string -> Option<Language>): (r: Option<(seq<Language>, seq<Json>)>)
    ensures r.Some? <==> Rows(root).Ok? && HeaderRow(Rows(root).value[0], parseLanguage).Ok?
    ensures r.Some? ==> r.value == (HeaderRow(Rows(root).value[0], parseLanguage).value, Rows(root).value[1..])
    ensures r.Some? ==> |r.value.1| == |Rows(root).value| - 1
  {
    match Rows(root)
    case Error(_) => None
    case Ok(rows) =>
      match HeaderRow(rows[0], parseLanguage)
      case Error(_) => None
      case Ok(langs) => Some((langs, rows[1..]))
  }

  /** The sheet branch succeeds exactly when the response strips, the
      decoded payload has its rows and a readable header row, every data row
      parses, and the keys of the entries to insert are pairwise distinct. */
  lemma SheetParseSucceeds(prior: Table, text: string, hooks: Hooks)
    ensures ParseSheet(prior, text, hooks).Done? <==>
      && Strip(text).Ok?
      && Layout(hooks.decode(Strip(text).value), hooks.parseLanguage).Some?
      && var layout := Layout(hooks.decode(Strip(text).value), hooks.parseLanguage).value;
         var es := ParseRows(layout.0, layout.1, hooks.onLoad);
         es.Ok? && Distinct(KeysOf(es.value))
  {
  }

  /** A cell holding the text `t`. */
  function TextCell(t: string): Json {
    Obj(map["v" := Str(t)])
  }

  /** A row of cells. */
  function CellRow(cells: seq<Json>): Json {
    Obj(map["c" := Arr(cells)])
  }

  /** A sheet with a header row naming English and one data row parses to a
      table with that row's key and English text. */
  lemma GreetingSheetParses()
    ensures var header := CellRow([TextCell("key"), TextCell("English")]);
      var row := CellRow([TextCell("greeting"), TextCell("Hello")]);
      var root := Obj(map["table" := Obj(map["rows" := Arr([header, row])])]);
      var r := ParseTree(root, s => if s == "English" then Some(English) else None, None);
      && r.Done?
      && r.table.keys == ["greeting"]
      && r.table.items["greeting"].keys == [English]
      && r.table.items["greeting"].items[English] == Some("Hello")
  {
    var parse: string -> Option<Language> := s => if s == "English" then Some(English) else None;
    var header := CellRow([TextCell("key"), TextCell("English")]);
    var row := CellRow([TextCell("greeting"), TextCell("Hello")]);
    var root := Obj(map["table" := Obj(map["rows" := Arr([header, row])])]);
    assert Rows(root) == Ok([header, row]);
    GreetingHeader(parse);
    var langs := [English];
    var m := GreetingMap(langs, row);
    var e: Table := Empty();
    var t := Add(e, "greeting", m).value;
    assert Ingest(langs, [row], None, e) == Ingest(langs, [], None, t);
    assert ParseTree(root, parse, None) == Ingest(langs, [row], None, e);
  }

  /** A cell built from a text reads back as that text. */
  lemma TextCellReads(t: string)
    ensures CellText(TextCell(t)) == Ok(Some(t))
  {
    assert MemberOrNull(TextCell(t), "v") == Ok(Str(t));
  }

  /** The header row `key | English` yields the one data column English. */
  lemma GreetingHeader(parse: string -> Option<Language>)
    requires parse("English") == Some(English)
    ensures HeaderRow(CellRow([TextCell("key"), TextCell("English")]), parse) == Ok([English])
  {
    var cells := [TextCell("key"), TextCell("English")];
    TextCellReads("key");
    TextCellReads("English");
    assert HeaderLanguage(cells[0], parse).Ok?;
    assert HeaderLanguage(cells[1], parse) == Ok(English);
    assert IsRow(CellRow(cells));
    assert CellRow(cells).fields["c"].elems == cells;
    assert HeaderRow(CellRow(cells), parse).Ok?;
    var langs := HeaderRow(CellRow(cells), parse).value;
    assert |langs| == 1 && langs[0] == English;
    assert langs == [English];
  }

  /** The data cells `Hello` under English store the one English text. */
  lemma GreetingCells(m: LangMap)
    requires m == Add(Empty(), English, Some("Hello")).value
    ensures ParseCells([English], [TextCell("Hello")], 0, Empty()) == Ok(m)
  {
    UnescapeKeepsPlainText("Hello");
    TextCellReads("Hello");
    assert ParseCells([English], [TextCell("Hello")], 1, m) == Ok(m);
  }

  lemma GreetingMap(langs: seq<Language>, row: Json) returns (m: LangMap)
    requires langs == [English]
    requires row == CellRow([TextCell("greeting"), TextCell("Hello")])
    ensures ParseRow(langs, row) == Ok(Some(("greeting", m)))
    ensures m.keys == [English] && m.items[English] == Some("Hello")
  {
    assert row.fields["c"].elems[1..] == [TextCell("Hello")];
    TextCellReads("greeting");
    var e: LangMap := Empty();
    m := Add(e, English, Some("Hello")).value;
    GreetingCells(m);
  }

  /** A successful sheet parse replaces the table wholesale (the table is
      cleared first): the result does not depend on the table held before,
      and enumerates exactly the keys of the entries the payload yields. */
  lemma SheetReplacesTable(prior: Table, other: Table, text: string, hooks: Hooks)
    requires ParseSheet(prior, text, hooks).Done?
    ensures ParseSheet(other, text, hooks) == ParseSheet(prior, text, hooks)
    ensures var root := hooks.decode(Strip(text).value);
      var layout := Layout(root, hooks.parseLanguage).value;
      var es := ParseRows(layout.0, layout.1, hooks.onLoad);
      && es.Ok?
      && ParseSheet(prior, text, hooks).table.keys == KeysOf(es.value)
  {
    var root := hooks.decode(Strip(text).value);
    var layout := Layout(root, hooks.parseLanguage).value;
    var e: Table := Empty();
    IngestMatchesParseRows(layout.0, layout.1, hooks.onLoad, e);
    assert e.keys + KeysOf(ParseRows(layout.0, layout.1, hooks.onLoad).value)
      == KeysOf(ParseRows(layout.0, layout.1, hooks.onLoad).value);
  }

  /** Every entry of a finished table is one the payload yields. */
  lemma DoneEntriesFromRows(langs: seq<Language>, rows: seq<Json>, onLoad: Option<Hook>, k: string)
    requires Ingest(langs, rows, onLoad, Empty()).Done?
    requires k in Ingest(langs, rows, onLoad, Empty()).table.items
    ensures ParseRows(langs, rows, onLoad).Ok?
    ensures exists j ::
      && 0 <= j < |ParseRows(langs, rows, onLoad).value|
      && ParseRows(langs, rows, onLoad).value[j] == (k, Ingest(langs, rows, onLoad, Empty()).table.items[k])
  {
    var e: Table := Empty();
    IngestMatchesParseRows(langs, rows, onLoad, e);
    var t := Ingest(langs, rows, onLoad, e).table;
    var es := ParseRows(langs, rows, onLoad).value;
    assert e.keys + KeysOf(es) == KeysOf(es);
    var j := EntryOfKey(t, es, k);
  }

  /** A table enumerating the keys of `es` and mapping each to its entry's
      map holds each of its keys as one of the entries. */
  lemma EntryOfKey(t: Table, es: seq<Entry>, k: string) returns (j: nat)
    requires t.keys == KeysOf(es)
    requires forall j :: 0 <= j < |es| ==> t.items[es[j].0] == es[j].1
    requires k in t.items
    ensures j < |es| && es[j] == (k, t.items[k])
  {
    assert k in t.keys;
    j :| 0 <= j < |es| && t.keys[j] == k;
  }

  /** Without a hook, no language map of a sheet-loaded table holds the
      `Unknown` language: cells under an unrecognised header are dropped. */
  lemma UnknownColumnsDropped(prior: Table, text: string, hooks: Hooks)
    requires hooks.onLoad.None?
    requires ParseSheet(prior, text, hooks).Done?
    ensures var t := ParseSheet(prior, text, hooks).table;
      forall k :: k in t.items ==> Unknown !in t.items[k].items
  {
    var root := hooks.decode(Strip(text).value);
    var layout := Layout(root, hooks.parseLanguage).value;
    var t := ParseSheet(prior, text, hooks).table;
    forall k | k in t.items
      ensures Unknown !in t.items[k].items
    {
      DoneEntriesFromRows(layout.0, layout.1, hooks.onLoad, k);
    }
  }

  /** Without a hook, every text of a sheet-loaded table is non-null and
      holds no backslash-n sequence. */
  lemma SheetTextsUnescaped(prior: Table, text: string, hooks: Hooks)
    requires hooks.onLoad.None?
    requires ParseSheet(prior, text, hooks).Done?
    ensures var t := ParseSheet(prior, text, hooks).table;
      forall k, l :: k in t.items && l in t.items[k].items ==>
        t.items[k].items[l].Some? && NoEscape(t.items[k].items[l].value)
  {
    var root := hooks.decode(Strip(text).value);
    var layout := Layout(root, hooks.parseLanguage).value;
    var langs := layout.0;
    var t := ParseSheet(prior, text, hooks).table;
    forall k, l | k in t.items && l in t.items[k].items
      ensures t.items[k].items[l].Some? && NoEscape(t.items[k].items[l].value)
    {
      DoneEntriesFromRows(langs, layout.1, hooks.onLoad, k);
      var es := ParseRows(langs, layout.1, hooks.onLoad).value;
      var j :| 0 <= j < |es| && es[j] == (k, t.items[k]);
      var s, _, _ := RowTextSource(langs, layout.1, j, l);
      UnescapeClearsEscapes(s);
    }
  }

  /** Each text of a parsed entry (no hook) is the unescaped text of a
      stored cell: the cell in column `i` (key column dropped) of data row
      `n`, whose header language is `l`. */
  lemma {:induction false} RowTextSource(langs: seq<Language>, rows: seq<Json>, j: nat, l: Language)
    returns (s: string, n: nat, i: nat)
    requires ParseRows(langs, rows, None).Ok?
    requires j < |ParseRows(langs, rows, None).value|
    requires l in ParseRows(langs, rows, None).value[j].1.items
    ensures n < |rows| && IsRow(rows[n])
    ensures Stored(langs, rows[n].fields["c"].elems[1..], i) && langs[i] == l
    ensures s == rows[n].fields["c"].elems[1..][i].fields["v"].s
    ensures ParseRows(langs, rows, None).value[j].1.items[l] == Some(Unescape(s))
    decreases |rows|
  {
    var e := ParseRowsFirst(langs, rows);
    if e.Some? && j == 0 {
      s, i := EntryTextSource(langs, rows[0], l);
      n := 0;
    } else {
      var n': nat;
      if e.Some? {
        s, n', i := RowTextSource(langs, rows[1..], j - 1, l);
      } else {
        s, n', i := RowTextSource(langs, rows[1..], j, l);
      }
      assert rows[1..][n'] == rows[n' + 1];
      n := n' + 1;
    }
  }

  /** The entries collected from rows that all parse: the first row's entry,
      if any, then those of the rest. */
  lemma ParseRowsFirst(langs: seq<Language>, rows: seq<Json>) returns (e: Option<Entry>)
    requires ParseRows(langs, rows, None).Ok? && |rows| > 0
    ensures ParseRow(langs, rows[0]) == Ok(e)
    ensures ParseRows(langs, rows[1..], None).Ok?
    ensures var es' := ParseRows(langs, rows[1..], None).value;
      ParseRows(langs, rows, None).value == if e.Some? then [e.value] + es' else es'
  {
    e := ParseRow(langs, rows[0]).value;
  }

  /** Each text of a row's entry is the unescaped text of one of its stored
      cells. */
  lemma EntryTextSource(langs: seq<Language>, row: Json, l: Language) returns (s: string, i: nat)
    requires ParseRow(langs, row).Ok? && ParseRow(langs, row).value.Some?
    requires l in ParseRow(langs, row).value.value.1.items
    ensures IsRow(row)
    ensures Stored(langs, row.fields["c"].elems[1..], i) && langs[i] == l
    ensures s == row.fields["c"].elems[1..][i].fields["v"].s
    ensures ParseRow(langs, row).value.value.1.items[l] == Some(Unescape(s))
  {
    var data := row.fields["c"].elems[1..];
    ParseCellsAddsOnlyStored(langs, data, 0, Empty());
    i :| 0 <= i < |data| && Stored(langs, data, i) && langs[i] == l;
    s := data[i].fields["v"].s;
  }

  /** With a hook, the parser inserts exactly the hook's image of each entry
      it would insert without one, in the same order. */
  lemma {:induction false} HookAppliedToEachEntry(langs: seq<Language>, rows: seq<Json>, f: Hook)
    ensures ParseRows(langs, rows, Some(f)).Ok? <==> ParseRows(langs, rows, None).Ok?
    ensures ParseRows(langs, rows, None).Ok? ==>
      var raw := ParseRows(langs, rows, None).value;
      var hooked := ParseRows(langs, rows, Some(f)).value;
      |hooked| == |raw| && forall j :: 0 <= j < |raw| ==> hooked[j] == f(raw[j])
    decreases |rows|
  {
    if |rows| > 0 {
      HookAppliedToEachEntry(langs, rows[1..], f);
      if ParseRows(langs, rows, None).Ok? {
        var e := ParseRow(langs, rows[0]).value;
        var raw' := ParseRows(langs, rows[1..], None).value;
        var hooked' := ParseRows(langs, rows[1..], Some(f)).value;
        assert ParseRows(langs, rows, None).value == if e.Some? then [e.value] + raw' else raw';
        assert ParseRows(langs, rows, Some(f)).value == if e.Some? then [f(e.value)] + hooked' else hooked';
        HookedPrepend(f, e, raw', hooked');
      }
    }
  }

  /** One step of `HookAppliedToEachEntry`: putting an entry in front of the
      raw list and its image in front of the hooked list keeps the lists
      pointwise related. */
  lemma HookedPrepend(f: Hook, e: Option<Entry>, raw: seq<Entry>, hooked: seq<Entry>)
    requires |hooked| == |raw| && forall j :: 0 <= j < |raw| ==> hooked[j] == f(raw[j])
    ensures var raw2 := if e.Some? then [e.value] + raw else raw;
      var hooked2 := if e.Some? then [f(e.value)] + hooked else hooked;
      |hooked2| == |raw2| && forall j :: 0 <= j < |raw2| ==> hooked2[j] == f(raw2[j])
  {
    if e.Some? {
      var raw2 := [e.value] + raw;
      var hooked2 := [f(e.value)] + hooked;
      forall j | 0 <= j < |raw2|
        ensures hooked2[j] == f(raw2[j])
      {
        if j > 0 {
          assert raw2[j] == raw[j - 1] && hooked2[j] == hooked[j - 1];
        }
      }
    }
  }
}

=== FILE: tables.dfy ===
/** The loader's table of localizations, key -> language -> text, and the
    persisted cache document it is written to (Localization.cs:22-24). */
module Tables {
  import opened Wrappers
  import opened Exceptions
  import opened SerializableDictionary

  /** Unity's `SystemLanguage` enumeration. Only two members play a part in
      the modelled code: `Unknown`, which marks a column to skip, and
      `English`, the fallback language; every other member is `Other`,
      named by a name that is not one of those two. */
  datatype Language = Unknown | English | Other(name: OtherName)

  type OtherName = s: string | s != "Unknown" && s != "English" witness "French"

  /** A .NET string reference: `None` is null. The sheet parser stores only
      non-null texts, but a cache document may carry a null one. */
  type Text = Option<string>

  type LangMap = Dictionary<Language, Text>
  type Table = Dictionary<string, LangMap>

  /** One parsed row: its key and its per-language texts. */
  type Entry = (string, LangMap)

  /** The cache document at item level: each outer item's value is the
      nested item list of that key's language map. */
  type LangDoc = seq<(Language, Text)>
  type TableDoc = seq<(string, LangDoc)>

  /** The text serializer is taken to return every text unchanged, and so
      is the key serializer (keys stay as they are in the item list). That
      holds for strings XML reading preserves; a string with a carriage return
      before a line break, or one made only of white space, is read back
      differently by `XmlSerializer`, and that is not modelled. Text that
      does not parse is a garbled document (see `Loader.Content`). */
  function WriteText(t: Text): Text { t }

  function ReadText(t: Text): Result<Text, Exception> { Ok(t) }

  function WriteLangMap(m: LangMap): LangDoc {
    WriteXml(m, WriteText)
  }

  function ReadLangMap(doc: LangDoc): Result<LangMap, Exception> {
    ReadXml(doc, ReadText)
  }

  /** The document `XmlSerializer.Serialize` writes for a table. */
  function EncodeTable(t: Table): (doc: TableDoc)
    ensures KeysOf(doc) == t.keys
    ensures forall j :: 0 <= j < |doc| ==> doc[j].1 == WriteLangMap(t.items[doc[j].0])
  {
    WriteXml(t, WriteLangMap)
  }

  /** The table `XmlSerializer.Deserialize` reads from a document; any
      repeated key, outer or inner, makes it throw. */
  function DecodeTable(doc: TableDoc): (r: Result<Table, Exception>)
    ensures r.Ok? ==> r.value.keys == KeysOf(doc)
    ensures r.Ok? <==> Distinct(KeysOf(doc)) && forall j :: 0 <= j < |doc| ==> Distinct(KeysOf(doc[j].1))
    ensures r.Ok? ==> forall j :: 0 <= j < |doc| ==> ReadLangMap(doc[j].1) == Ok(r.value.items[doc[j].0])
  {
    var r := ReadXml(doc, ReadLangMap);
    assert forall j :: 0 <= j < |doc| ==> (ReadLangMap(doc[j].1).Ok? <==> Distinct(KeysOf(doc[j].1)));
    r
  }

  /** Writing a table to the cache and reading it back yields the same
      table: the same keys in the same order, and for each key the same
      languages in the same order with the same texts. */
  lemma TableRoundTrip(t: Table)
    ensures DecodeTable(EncodeTable(t)) == Ok(t)
  {
    forall k | k in t.items
      ensures ReadLangMap(WriteLangMap(t.items[k])) == Ok(t.items[k])
    {
      ReadWriteRoundTrip(t.items[k], WriteText, ReadText);
    }
    ReadWriteRoundTrip(t, WriteLangMap, ReadLangMap);
  }
}

=== FILE: wrappers.dfy ===
/** Failure-compatible wrappers. A .NET reference that may be null becomes an
    `Option`; an operation that may throw becomes a `Result` whose error is the
    exception it raises. */
module Wrappers {

  datatype Option<+T> = None | Some(value: T) {

    /** The wrapped value, or `default` for a null reference. */
    function GetOr(default: T): T {
      match this
      case Some(v) => v
      case None => default
    }
  }

  datatype Result<+T, +E> = Ok(value: T) | Error(error: E) {

    predicate IsFailure() {
      Error?
    }

    function PropagateFailure<U>(): Result<U, E>
      requires Error?
    {
      Error(error)
    }

    function Extract(): T
      requires Ok?
    {
      value
    }
  }
}

/** The .NET exceptions the modelled code can raise. None of them is caught
    inside the sheet parser; `Loader.LoadFromFile` catches every one. */
module Exceptions {

  datatype Exception =
    | NullReference        // member access through an `as` cast that yielded null
    | KeyNotFound          // a dictionary indexer on an absent key
    | ArgumentOutOfRange   // Substring, RemoveAt or a list index out of range
    | ArgumentNull         // a LINQ operator applied to a null sequence
    | InvalidOperation     // First() of an empty sequence
    | DuplicateKey         // Dictionary.Add of a key already present (ArgumentException)
}
